=== FILE: README.md ===
# Form-master class roster — a Dafny model

This project models the roster logic of the form-master dashboard
(`src/pages/Dashboard/roles/FormMasterDashboard.jsx`). A form master adds students to
their class, views the class list sorted by name, and removes students. Everything is
kept in one persisted object, `classLists`, which maps a class level to that class's
student records. Adding a student also provisions exam-score slots for it in the exam
bank (`initializeStudentScores`).

The model is purely functional:

- `Wrappers`: `Option`, which stands in for JavaScript's `undefined`.
- `Text`: JavaScript `trim` with the ECMAScript whitespace set, `Number.prototype.toString`
  for non-negative integers and its inverse, and `slice` with a negative start.
- `Users`: the signed-in user (`formClass`, `classes`) and the class-level fallback
  `user.formClass || user.classes?.[0]`.
- `StudentIds`: the record id `<classLevel>_<millis>` (with a parser back to its parts)
  and the display id `STU` + last four digits.
- `Roster`: `Student`, `ClassLists = map<string, seq<Student>>`, the add and remove
  handlers. Each handler returns the new object and a log of its outward effects:
  `WriteClassLists` (the storage write) and `InitializeStudentScores` (the
  provisioning call), in the order it performs them.
- `Listing`: the view's listing, which loads the class's list through `Roster.ClassList`
  and sorts it by `fullName`. The comparison is an abstract `(string, string) -> int`
  standing in for `localeCompare`.
- `Session`: a run of add and remove actions, and the invariants every run keeps.
- `Walkthrough`: a worked session for class `JSS1`, using code-point order as the
  comparison.

Clock readings (`Date.now()`) and the confirmation dialog's answer are parameters.
The two clock readings in the add handler are separate parameters, because the code
reads the clock twice.

Three facts about the code shape the model:

- Reading storage does not catch `JSON.parse` errors. `|| {}` only covers a missing
  object, so corrupt stored text is not read as an empty object.
- Remove filters out every record with the given id, not just one.
- Add makes no duplicate-id check. Id uniqueness is proved only under a fresh-clock
  assumption.

## Model

| member | source | states |
|---|---|---|
| Users.ClassLevel | src/pages/Dashboard/roles/FormMasterDashboard.jsx:89 | The key is `formClass` when it is a non-empty string. Otherwise it is the first listed class. It is missing (`undefined`) exactly when neither source supplies one. |
| Text.SkipLeading | src/pages/Dashboard/roles/FormMasterDashboard.jsx:84 | The result is the first position at or after the start that holds no whitespace. Everything skipped is whitespace. |
| Text.SkipTrailing | src/pages/Dashboard/roles/FormMasterDashboard.jsx:84 | The result is the end of the range once trailing whitespace is cut off. Everything cut is whitespace, and a non-empty remainder ends in non-whitespace. |
| Text.Trim | src/pages/Dashboard/roles/FormMasterDashboard.jsx:98 | The result is a contiguous middle of the input. Only whitespace is cut from each side, and a non-empty result has non-whitespace ends. |
| Text.CutsAgree | src/pages/Dashboard/roles/FormMasterDashboard.jsx:98 | Two cuts that each remove only whitespace and leave non-whitespace ends give the same string. |
| Text.TrimUnique | src/pages/Dashboard/roles/FormMasterDashboard.jsx:98 | Any cut that removes only whitespace and leaves non-whitespace ends equals `trim`'s result. |
| Text.TrimIdempotent | src/pages/Dashboard/roles/FormMasterDashboard.jsx:98 | Trimming twice is the same as trimming once. |
| Text.TrimEmptyIffAllWhitespace | src/pages/Dashboard/roles/FormMasterDashboard.jsx:84-87 | `studentName.trim()` is empty (falsy) if and only if every character of the name is whitespace. |
| Text.Decimal | src/pages/Dashboard/roles/FormMasterDashboard.jsx:90 | `Date.now()` rendered in a template is a non-empty string of digits with no leading zero. |
| Text.ParseDecimal | src/pages/Dashboard/roles/FormMasterDashboard.jsx:99 | The value of a digit string of length k is below 10^k. |
| Text.ParseDecimalOfDecimal | src/pages/Dashboard/roles/FormMasterDashboard.jsx:90 | Reading back the decimal rendering of a timestamp gives the timestamp. |
| Text.DecimalOfParseDecimal | src/pages/Dashboard/roles/FormMasterDashboard.jsx:90 | Rendering the value of a canonical digit string gives that string back. |
| Text.DecimalInjective | src/pages/Dashboard/roles/FormMasterDashboard.jsx:90 | Distinct timestamps render differently. |
| Text.ParseDecimalOfSuffix | src/pages/Dashboard/roles/FormMasterDashboard.jsx:99 | The last k digits of a timestamp spell the timestamp modulo 10^k. |
| Text.SliceFrom | src/pages/Dashboard/roles/FormMasterDashboard.jsx:99 | `slice(start)` returns a suffix. Its length is `-start` clamped to the string for a negative start, and the remaining length for a non-negative start. |
| StudentIds.MakeId | src/pages/Dashboard/roles/FormMasterDashboard.jsx:90 | The record id is the class level, then `_`, then the decimal timestamp. |
| StudentIds.LastIndexOf | src/pages/Dashboard/roles/FormMasterDashboard.jsx:90 | The result is the position of the last occurrence of the character, or -1 when it does not occur. |
| StudentIds.ParseMakeId | src/pages/Dashboard/roles/FormMasterDashboard.jsx:90 | The class level and the timestamp can be read back from any record id. This holds even when the class level contains `_`. |
| StudentIds.MakeParsedId | src/pages/Dashboard/roles/FormMasterDashboard.jsx:90 | Every string the id parser accepts is exactly the id built from the parts it returns. |
| StudentIds.MakeIdInjective | src/pages/Dashboard/roles/FormMasterDashboard.jsx:90 | Two record ids are equal only if their class levels and timestamps are both equal. Within one class, distinct timestamps give distinct ids. |
| StudentIds.DisplayId | src/pages/Dashboard/roles/FormMasterDashboard.jsx:99 | The display id is `STU` followed by the last min(4, length) characters of the second clock reading's decimal rendering. |
| StudentIds.DisplayIdDigits | src/pages/Dashboard/roles/FormMasterDashboard.jsx:99 | The characters after `STU` are digits, and their value is the clock reading modulo 10000. |
| StudentIds.DisplayIdRepeats | src/pages/Dashboard/roles/FormMasterDashboard.jsx:99 | Display ids are not unique: from four digits on, readings 10000 ms apart get the same display id. |
| Roster.ClassList | src/pages/Dashboard/roles/FormMasterDashboard.jsx:140 | The load with its fallback to `[]`: the class's stored list when the key is present, and the empty list when it is absent. |
| Roster.Enroll | src/pages/Dashboard/roles/FormMasterDashboard.jsx:94-102 | The class's list gains exactly one record at its end, and the list is created if it was absent. The key set grows by at most that key, and every other class's list is unchanged. |
| Roster.AddStudent | src/pages/Dashboard/roles/FormMasterDashboard.jsx:83-110 | A whitespace-only name is refused with no write and no provisioning call. Otherwise: the record has id `<class>_<t1>`, the trimmed non-empty name and display id from `t2`; it is appended to the resolved class's list (other classes unchanged); the log holds exactly one write of the new object, followed by exactly one `initializeStudentScores` call with the record id (not the display id), the class and the trimmed name. |
| Roster.AddedNameIsTrimmed | src/pages/Dashboard/roles/FormMasterDashboard.jsx:98 | The stored name has non-whitespace ends, and trimming it again changes nothing. |
| Roster.AddKeepsIdsUnique | src/pages/Dashboard/roles/FormMasterDashboard.jsx:90-102 | Suppose the class's ids are unique and were all made from that class and earlier clock readings. Then they stay unique after an add. No duplicate check is made, so this needs the fresh reading. |
| Roster.WithoutId | src/pages/Dashboard/roles/FormMasterDashboard.jsx:149 | `filter(s => s.id !== id)` keeps every record with another id exactly as many times as before, and none with this id. |
| Roster.WithoutIdKeepsOrder | src/pages/Dashboard/roles/FormMasterDashboard.jsx:149 | The kept records stay in their original relative order: the result is a subsequence of the list. |
| Roster.RemoveStudent | src/pages/Dashboard/roles/FormMasterDashboard.jsx:143-154 | Without confirmation, or when the class has no stored list, nothing is written or shown. Otherwise each record of that class with another id is kept exactly as many times as before, in its original relative order, and no record with this id is kept. All other classes are unchanged. The log holds one write of the new object, and the shown list becomes the filtered one. |
| Roster.WithoutAbsentId | src/pages/Dashboard/roles/FormMasterDashboard.jsx:149 | Filtering by an id that no record has returns the list unchanged. |
| Roster.WithoutIdAppend | src/pages/Dashboard/roles/FormMasterDashboard.jsx:149 | Filtering distributes over concatenation. |
| Roster.WithoutIdLeavesNone | src/pages/Dashboard/roles/FormMasterDashboard.jsx:149 | After filtering, no record with that id remains. |
| Roster.RemoveAbsentIdKeepsLists | src/pages/Dashboard/roles/FormMasterDashboard.jsx:144-152 | An unknown id, a missing class list or a refused confirmation leaves the stored object unchanged. |
| Roster.RemoveTwiceIsRemoveOnce | src/pages/Dashboard/roles/FormMasterDashboard.jsx:143-154 | Removing the same id twice gives the same object as removing it once. |
| Roster.RemoveUndoesAdd | src/pages/Dashboard/roles/FormMasterDashboard.jsx:96-106 | Removing a record just added with a fresh id restores the previous object, except that a list the add created stays behind, empty. The provisioning call remains in the log and nothing releases it. |
| Listing.InsertByName | src/pages/Dashboard/roles/FormMasterDashboard.jsx:157-159 | Inserting a record adds exactly that record to the multiset of records. |
| Listing.InsertByNameSorted | src/pages/Dashboard/roles/FormMasterDashboard.jsx:157-159 | Inserting into a list sorted by name keeps it sorted, under a total-preorder comparison. |
| Listing.SortByName | src/pages/Dashboard/roles/FormMasterDashboard.jsx:157-159 | The sorted copy is a permutation of the list. It is ordered by `fullName` whenever the comparison is a total preorder. |
| Listing.TiedWithAppend | src/pages/Dashboard/roles/FormMasterDashboard.jsx:157-159 | Selecting the records whose names tie with a given name distributes over concatenation. |
| Listing.NothingTiesBelowHead | src/pages/Dashboard/roles/FormMasterDashboard.jsx:157-159 | Under a total preorder, if a sorted list starts strictly above a name, no record in it ties with that name. |
| Listing.InsertByNameStable | src/pages/Dashboard/roles/FormMasterDashboard.jsx:157-159 | Inserting into a list sorted under a total preorder puts the record after every record whose name ties with it. |
| Listing.SortByNameStable | src/pages/Dashboard/roles/FormMasterDashboard.jsx:157-159 | For a total-preorder comparison the sort is stable, as `Array.prototype.sort` is: records whose names tie keep their original relative order. |
| Listing.ListStudents | src/pages/Dashboard/roles/FormMasterDashboard.jsx:137-159 | The view shows a permutation of the class's stored list, or nothing when the class has no list. It is sorted by name for a consistent comparison, and the stored object is left as it is. |
| Listing.ListAfterAdd | src/pages/Dashboard/roles/FormMasterDashboard.jsx:102 | After an add, the listing holds what it held before plus the new record. |
| Listing.ListAfterRemove | src/pages/Dashboard/roles/FormMasterDashboard.jsx:149 | After a confirmed remove, the listing holds each record with another id exactly as many times as before, and no record with this id. |
| Session.LastWrite | src/pages/Dashboard/roles/FormMasterDashboard.jsx:103 | There is no last write exactly when the log holds no storage write. Otherwise the result is the object of a write entry after which the log holds no further write. |
| Session.Apply | src/pages/Dashboard/roles/FormMasterDashboard.jsx:102-106 | One action only extends the log. It keeps "for every rostered student a provisioning call was issued under its id, class and name" and "storage holds the current object". |
| Session.AddKeepsInvariants | src/pages/Dashboard/roles/FormMasterDashboard.jsx:102-106 | An add keeps both session invariants. |
| Session.RemoveKeepsInvariants | src/pages/Dashboard/roles/FormMasterDashboard.jsx:148-150 | A remove keeps both session invariants. |
| Session.AddKeepsProvisioned | src/pages/Dashboard/roles/FormMasterDashboard.jsx:103-106 | If every rostered student already had a matching provisioning call, then after a successful add every rostered student, including the new one, has one. |
| Session.RunKeepsInvariants | src/pages/Dashboard/roles/FormMasterDashboard.jsx:83-154 | Any sequence of adds and removes that starts consistent stays consistent: for each rostered student a provisioning call was issued, and the last write is the current object. |
| Walkthrough.CodePointOrderIsTotalPreorder | src/pages/Dashboard/roles/FormMasterDashboard.jsx:158 | Code-point order is a consistent comparison, so the sortedness and stability results apply to it. |
| Walkthrough.TwoAdds | src/pages/Dashboard/roles/FormMasterDashboard.jsx:83-110 | Two adds to an empty object for `JSS1` build the list of the two records in order. The first add logs one write, then one provisioning call with the record id, `JSS1` and the name. |
| Walkthrough.TwoStudentSession | src/pages/Dashboard/roles/FormMasterDashboard.jsx:83-159 | For any two trimmed non-blank names where the second sorts first, added at two different clock readings: two adds to an empty object list the second name, then the first. Removing the first record lists the second alone. Removing an id from a reading other than the second add's then changes nothing. |
| Walkthrough.SameMillisecond | src/pages/Dashboard/roles/FormMasterDashboard.jsx:90-149 | Two adds at the same clock reading give both records the same id, because no duplicate check is made. Removing the first record's id then empties the class. |
| Walkthrough.JssOneSession | src/pages/Dashboard/roles/FormMasterDashboard.jsx:83-159 | Start from nothing for `JSS1`. Add "Bola Akin", then "Ada Obi" (distinct clock readings): the view lists Ada then Bola. Remove Bola: Ada is listed alone. Remove an id made from a reading other than Ada's: the object is unchanged. |

## Left out

- Rendering and React state: JSX, `useState`, the section toggle and the loading guard. The one exception is the list the remove handler puts on screen (`RemoveResult.shown`).
- `localStorage`, `JSON.stringify` and `JSON.parse`: the stored object is a map value. Unparseable stored text makes the code throw, and this is not modelled.
- `alert` messages, including the success message that echoes the untrimmed name: presentation only.
- `Date.now()` and `window.confirm`: these are parameters. Clock readings are naturals, so dates before 1970 and the exponent form of numbers at or above 10^21 are not modelled.
- The class key when both `formClass` and `classes[0]` are missing. The code would then use the key `"undefined"` and pass `undefined` to provisioning. The model requires a class level on every path that reaches the resolution: add after the empty-name check, remove after confirmation, and the listing.
- A missing `classes` array and an empty one both yield `undefined` in the fallback, so both are modelled as an empty sequence.
- Class keys that clash with `Object.prototype` properties (`toString`, `__proto__`): on a plain JavaScript object these read as truthy non-arrays, and the add handler would throw. A map has no such keys.
- A throwing `localStorage.setItem` or `initializeStudentScores` (lines 103 and 106): the model assumes both return. It records that the provisioning call was issued, not that it succeeded.
- The internals of `initializeStudentScores` and the exam bank, and `useAuth`: the call is recorded as an effect.
- Concurrent writers (two tabs): each handler reads and writes the whole object, so a lost update is possible. This is not modelled.
- Strings are sequences of Unicode scalar values rather than UTF-16 code units. All characters `trim` removes lie in the Basic Multilingual Plane, and timestamps are ASCII digits, so trim and slice agree on them.
- `localeCompare`'s locale rules: the comparison is a parameter. With an inconsistent comparison JavaScript leaves the order implementation-defined, and the model then promises only a permutation.
- Listing.ListStudents: the sorted order is proved for comparisons that are total preorders (non-positive result as "not after"). This is weaker than `localeCompare`'s full contract, which also fixes the sign for each pair.

=== FILE: ids.dfy ===
/**
 * The two identifiers a new student receives: the record key
 * `<classLevel>_<millis>` that links the roster to the exam-scoring store,
 * and the display id `STU` plus the last four digits of a second clock read.
 */
module StudentIds {
  import opened Wrappers
  import opened Text

  const Separator: char := '_'
  const DisplayPrefix: string := "STU"
  const DisplayDigits: nat := 4

  /** `${classLevel}_${Date.now()}`. */
  function MakeId(classLevel: string, now: nat): (id: string)
    ensures |id| > |classLevel| + 1
    ensures id[..|classLevel|] == classLevel && id[|classLevel|] == Separator
    ensures id[|classLevel| + 1..] == Decimal(now)
  {
    classLevel + [Separator] + Decimal(now)
  }

  /** Index of the last occurrence of `c` in `s`, or -1. */
  function LastIndexOf(s: string, c: char): (i: int)
    ensures -1 <= i < |s|
    ensures 0 <= i ==> s[i] == c
    ensures forall j :: i < j < |s| ==> s[j] != c
  {
    if s == [] then -1
    else if s[|s| - 1] == c then |s| - 1
    else LastIndexOf(s[..|s| - 1], c)
  }

  /** Splits a record id back into its class and timestamp; `None` when `id` is not
      of the form `MakeId` produces. */
  function ParseId(id: string): (r: Option<(string, nat)>)
  {
    var i := LastIndexOf(id, Separator);
    if i < 0 then None
    else
      var digits := id[i + 1..];
      if digits != [] && AllDigits(digits) && (|digits| > 1 ==> digits[0] != '0')
      then Some((id[..i], ParseDecimal(digits)))
      else None
  }

  /** The class and the timestamp can be read back from a record id: the separator is
      the last one in the id, since a decimal rendering has none. */
  lemma {:induction false} ParseMakeId(classLevel: string, now: nat)
    ensures ParseId(MakeId(classLevel, now)) == Some((classLevel, now))
  {
    var id := MakeId(classLevel, now);
    var k := |classLevel|;
    LastSeparator(classLevel, now);
    assert id[..k] == classLevel;
    ParseDecimalOfDecimal(now);
  }

  /** The separator `MakeId` writes is the last one in the id: the digits after it hold none. */
  lemma {:induction false} LastSeparator(classLevel: string, now: nat)
    ensures LastIndexOf(MakeId(classLevel, now), Separator) == |classLevel|
  {
    var id := MakeId(classLevel, now);
    var k := |classLevel|;
    var dec := Decimal(now);
    assert id[k] == Separator;
    assert forall j :: k < j < |id| ==> id[j] == dec[j - k - 1];
  }

  /** Every id `ParseId` accepts is the one `MakeId` builds from its parts. */
  lemma {:induction false} MakeParsedId(id: string)
    requires ParseId(id).Some?
    ensures MakeId(ParseId(id).value.0, ParseId(id).value.1) == id
  {
    var i := LastIndexOf(id, Separator);
    var digits := id[i + 1..];
    DecimalOfParseDecimal(digits);
    assert id == id[..i] + [Separator] + digits;
  }

  /** Record ids never collide unless both the class and the timestamp agree. */
  lemma {:induction false} MakeIdInjective(c1: string, t1: nat, c2: string, t2: nat)
    requires MakeId(c1, t1) == MakeId(c2, t2)
    ensures c1 == c2 && t1 == t2
  {
    ParseMakeId(c1, t1);
    ParseMakeId(c2, t2);
  }

  /** `STU${Date.now().toString().slice(-4)}`. */
  function DisplayId(now: nat): (d: string)
    ensures |d| == |DisplayPrefix| + Min(DisplayDigits, |Decimal(now)|)
    ensures d[..|DisplayPrefix|] == DisplayPrefix
    ensures d[|DisplayPrefix|..] == Decimal(now)[|Decimal(now)| - (|d| - |DisplayPrefix|)..]
  {
    DisplayPrefix + SliceFrom(Decimal(now), -(DisplayDigits as int))
  }

  function Min(a: nat, b: nat): nat {
    if a <= b then a else b
  }

  /** The digits after `STU` are the clock reading modulo 10000. */
  lemma {:induction false} DisplayIdDigits(now: nat)
    ensures AllDigits(DisplayId(now)[|DisplayPrefix|..])
    ensures ParseDecimal(DisplayId(now)[|DisplayPrefix|..]) == now % Pow10(DisplayDigits)
  {
    var dec := Decimal(now);
    var k := Min(DisplayDigits, |dec|);
    ParseDecimalOfSuffix(now, k);
    if k < DisplayDigits {
      // fewer than four digits: the whole number, which is already below 10^k
      assert ParseDecimal(dec) < Pow10(k);
      Pow10Monotone(k, DisplayDigits);
      ParseDecimalOfDecimal(now);
      assert dec[|dec| - k..] == dec;
      SmallMod(now, Pow10(DisplayDigits));
    }
  }

  lemma {:induction false} Pow10Monotone(j: nat, k: nat)
    requires j <= k
    ensures Pow10(j) <= Pow10(k)
  {
    if j < k { Pow10Monotone(j, k - 1); }
  }

  lemma {:induction false} SmallMod(n: nat, m: nat)
    requires n < m
    ensures n % m == n
  {
  }

  /** Display ids are not unique: two clock readings 10000 ms apart (from four digits
      on) get the same one. */
  lemma {:induction false} DisplayIdRepeats(now: nat)
    requires now >= 1000
    ensures DisplayId(now) == DisplayId(now + 10000)
  {
    var later := now + 10000;
    DisplayIdDigits(now);
    DisplayIdDigits(later);
    DecimalAtLeastFourDigits(now);
    DecimalAtLeastFourDigits(later);
    assert later % 10000 == now % 10000;
    var a, b := DisplayId(now), DisplayId(later);
    ParseDecimalInjectiveAtLength(a[3..], b[3..]);
    assert a == a[..3] + a[3..] && b == b[..3] + b[3..];
  }

  lemma {:induction false} DecimalAtLeastFourDigits(n: nat)
    requires n >= 1000
    ensures |Decimal(n)| >= 4
  {
    ParseDecimalOfDecimal(n);
    var k := |Decimal(n)|;
    if k < 4 {
      Pow10Monotone(k, 3);
    }
  }
}

=== FILE: listing.dfy ===
/**
 * The student-list view: the class's stored list is loaded (empty when the class
 * has none) and shown as a copy sorted by `fullName` with `localeCompare`. The
 * comparison is a parameter, since its locale rules are not part of this model.
 */
module Listing {
  import opened Wrappers
  import opened Text
  import opened Users
  import opened Roster

  /** `a.localeCompare(b)`: negative, zero or positive. */
  type Comparator = (string, string) -> int

  /** A comparison that orders consistently: every two names are comparable and
      "not after" is transitive. */
  ghost predicate TotalPreorder(cmp: Comparator) {
    && (forall a, b :: cmp(a, b) <= 0 || cmp(b, a) <= 0)
    && (forall a, b, c :: cmp(a, b) <= 0 && cmp(b, c) <= 0 ==> cmp(a, c) <= 0)
  }

  ghost predicate SortedByName(cmp: Comparator, students: seq<Student>) {
    forall i, j :: 0 <= i < j < |students| ==> cmp(students[i].fullName, students[j].fullName) <= 0
  }

  /** Places `s` into a list, in front of the first entry whose name compares
      greater and so after every entry that does not. */
  function InsertByName(cmp: Comparator, s: Student, students: seq<Student>): (r: seq<Student>)
    ensures multiset(r) == multiset(students) + multiset{s}
  {
    if students == [] then [s]
    else if cmp(students[0].fullName, s.fullName) > 0 then [s] + students
    else
      assert students == [students[0]] + students[1..];
      [students[0]] + InsertByName(cmp, s, students[1..])
  }

  /** A record that is not after anything in a sorted list can go in front of it. */
  lemma {:induction false} ConsSorted(cmp: Comparator, x: Student, students: seq<Student>)
    requires SortedByName(cmp, students)
    requires forall y :: y in students ==> cmp(x.fullName, y.fullName) <= 0
    ensures SortedByName(cmp, [x] + students)
  {
    var r := [x] + students;
    forall i, j | 0 <= i < j < |r| ensures cmp(r[i].fullName, r[j].fullName) <= 0 {
      if i == 0 {
        assert r[j] in students;
      } else {
        assert r[i] == students[i - 1] && r[j] == students[j - 1];
      }
    }
  }

  /** Inserting into a sorted list keeps it sorted. */
  lemma {:induction false} InsertByNameSorted(cmp: Comparator, s: Student, students: seq<Student>)
    requires TotalPreorder(cmp) && SortedByName(cmp, students)
    ensures SortedByName(cmp, InsertByName(cmp, s, students))
    decreases |students|
  {
    if students == [] {
    } else if cmp(students[0].fullName, s.fullName) > 0 {
      InsertInFrontSorted(cmp, s, students);
    } else {
      InsertByNameSorted(cmp, s, students[1..]);
      InsertFurtherSorted(cmp, s, students);
    }
  }

  lemma {:induction false} InsertInFrontSorted(cmp: Comparator, s: Student, students: seq<Student>)
    requires TotalPreorder(cmp) && SortedByName(cmp, students)
    requires students != [] && cmp(students[0].fullName, s.fullName) > 0
    ensures SortedByName(cmp, InsertByName(cmp, s, students))
  {
    var head := students[0].fullName;
    assert cmp(s.fullName, head) <= 0;
    forall y | y in students ensures cmp(s.fullName, y.fullName) <= 0 {
      var k :| 0 <= k < |students| && students[k] == y;
      if k > 0 {
        assert cmp(head, students[k].fullName) <= 0;
      }
    }
    ConsSorted(cmp, s, students);
  }

  lemma {:induction false} InsertFurtherSorted(cmp: Comparator, s: Student, students: seq<Student>)
    requires TotalPreorder(cmp) && SortedByName(cmp, students)
    requires students != [] && cmp(students[0].fullName, s.fullName) <= 0
    requires SortedByName(cmp, InsertByName(cmp, s, students[1..]))
    ensures SortedByName(cmp, InsertByName(cmp, s, students))
  {
    var head, rest := students[0], InsertByName(cmp, s, students[1..]);
    assert InsertByName(cmp, s, students) == [head] + rest;
    forall y | y in rest ensures cmp(head.fullName, y.fullName) <= 0 {
      assert y in multiset(rest);
      if y != s {
        var k :| 0 <= k < |students[1..]| && students[1..][k] == y;
        assert students[k + 1] == y;
      }
    }
    ConsSorted(cmp, head, rest);
  }

  /** `[...students].sort((a, b) => a.fullName.localeCompare(b.fullName))`: a
      rearrangement of the list, ordered by name whenever the comparison is consistent. */
  function SortByName(cmp: Comparator, students: seq<Student>): (r: seq<Student>)
    ensures multiset(r) == multiset(students)
    ensures TotalPreorder(cmp) ==> SortedByName(cmp, r)
  {
    if students == [] then []
    else
      var n := |students| - 1;
      assert students == students[..n] + [students[n]];
      var sorted := SortByName(cmp, students[..n]);
      var r := InsertByName(cmp, students[n], sorted);
      assert TotalPreorder(cmp) ==> SortedByName(cmp, r) by {
        if TotalPreorder(cmp) { InsertByNameSorted(cmp, students[n], sorted); }
      }
      r
  }

  /** Two names the comparison ties (`localeCompare` returns 0 both ways). */
  predicate Tied(cmp: Comparator, a: string, b: string) {
    cmp(a, b) <= 0 && cmp(b, a) <= 0
  }

  /** The records whose name ties with `name`, in list order. */
  function TiedWith(cmp: Comparator, students: seq<Student>, name: string): seq<Student> {
    if students == [] then []
    else (if Tied(cmp, students[0].fullName, name) then [students[0]] else [])
         + TiedWith(cmp, students[1..], name)
  }

  lemma {:induction false} TiedWithAppend(cmp: Comparator, a: seq<Student>, b: seq<Student>, name: string)
    ensures TiedWith(cmp, a + b, name) == TiedWith(cmp, a, name) + TiedWith(cmp, b, name)
    decreases |a|
  {
    if a == [] {
      assert a + b == b;
    } else {
      assert (a + b)[1..] == a[1..] + b;
      TiedWithAppend(cmp, a[1..], b, name);
    }
  }

  /** When a sorted list starts above `s`, no record in it ties with `s`'s name. */
  lemma {:induction false} NothingTiesBelowHead(cmp: Comparator, s: Student, students: seq<Student>, name: string)
    requires TotalPreorder(cmp) && SortedByName(cmp, students)
    requires students != [] && cmp(students[0].fullName, s.fullName) > 0
    requires Tied(cmp, s.fullName, name)
    ensures TiedWith(cmp, students, name) == []
    decreases |students|
  {
    var rest := students[1..];
    if rest != [] {
      assert cmp(students[0].fullName, rest[0].fullName) <= 0;
      NothingTiesBelowHead(cmp, s, rest, name);
    }
  }

  lemma {:induction false} TiedWithSingle(cmp: Comparator, s: Student, name: string)
    ensures TiedWith(cmp, [s], name) == if Tied(cmp, s.fullName, name) then [s] else []
  {
    assert [s][1..] == [];
  }

  /** Inserting `s` puts it after every record that ties with it. */
  lemma {:induction false} InsertByNameStable(cmp: Comparator, s: Student, students: seq<Student>, name: string)
    requires TotalPreorder(cmp) && SortedByName(cmp, students)
    ensures TiedWith(cmp, InsertByName(cmp, s, students), name)
            == TiedWith(cmp, students, name) + TiedWith(cmp, [s], name)
    decreases |students|
  {
    if students == [] {
    } else if cmp(students[0].fullName, s.fullName) > 0 {
      if Tied(cmp, s.fullName, name) {
        NothingTiesBelowHead(cmp, s, students, name);
      }
      InsertInFrontStable(cmp, s, students, name);
    } else {
      assert SortedByName(cmp, students[1..]);
      InsertByNameStable(cmp, s, students[1..], name);
      InsertFurtherStable(cmp, s, students, name);
    }
  }

  lemma {:induction false} InsertInFrontStable(cmp: Comparator, s: Student, students: seq<Student>, name: string)
    requires students != [] && cmp(students[0].fullName, s.fullName) > 0
    requires Tied(cmp, s.fullName, name) ==> TiedWith(cmp, students, name) == []
    ensures TiedWith(cmp, InsertByName(cmp, s, students), name)
            == TiedWith(cmp, students, name) + TiedWith(cmp, [s], name)
  {
    assert InsertByName(cmp, s, students) == [s] + students;
    TiedWithAppend(cmp, [s], students, name);
    TiedWithSingle(cmp, s, name);
  }

  lemma {:induction false} InsertFurtherStable(cmp: Comparator, s: Student, students: seq<Student>, name: string)
    requires students != [] && cmp(students[0].fullName, s.fullName) <= 0
    requires TiedWith(cmp, InsertByName(cmp, s, students[1..]), name)
             == TiedWith(cmp, students[1..], name) + TiedWith(cmp, [s], name)
    ensures TiedWith(cmp, InsertByName(cmp, s, students), name)
            == TiedWith(cmp, students, name) + TiedWith(cmp, [s], name)
  {
    var head, rest := [students[0]], students[1..];
    InsertFurtherShape(cmp, s, students);
    assert students == head + rest;
    TiedWithConsAppend(cmp, head, InsertByName(cmp, s, rest), rest, TiedWith(cmp, [s], name), name);
  }

  lemma {:induction false} InsertFurtherShape(cmp: Comparator, s: Student, students: seq<Student>)
    requires students != [] && cmp(students[0].fullName, s.fullName) <= 0
    ensures InsertByName(cmp, s, students) == [students[0]] + InsertByName(cmp, s, students[1..])
  {
  }

  lemma {:induction false} TiedWithConsAppend(cmp: Comparator, head: seq<Student>, a: seq<Student>, b: seq<Student>,
                           extra: seq<Student>, name: string)
    requires TiedWith(cmp, a, name) == TiedWith(cmp, b, name) + extra
    ensures TiedWith(cmp, head + a, name) == TiedWith(cmp, head + b, name) + extra
  {
    TiedWithAppend(cmp, head, a, name);
    TiedWithAppend(cmp, head, b, name);
    var x, y, z := TiedWith(cmp, head, name), TiedWith(cmp, a, name), TiedWith(cmp, b, name);
    assert x + (z + extra) == (x + z) + extra;
  }

  /** The sort is stable: records whose names tie keep their original relative order. */
  lemma {:induction false} SortByNameStable(cmp: Comparator, students: seq<Student>, name: string)
    requires TotalPreorder(cmp)
    ensures TiedWith(cmp, SortByName(cmp, students), name) == TiedWith(cmp, students, name)
    decreases |students|
  {
    if students != [] {
      var n := |students| - 1;
      assert students == students[..n] + [students[n]];
      SortByNameStable(cmp, students[..n], name);
      InsertByNameStable(cmp, students[n], SortByName(cmp, students[..n]), name);
      TiedWithAppend(cmp, students[..n], [students[n]], name);
    }
  }

  /** The list the view shows for the user's class: the stored one, sorted by name,
      the stored object itself being left as it is. */
  function ListStudents(lists: ClassLists, user: User, cmp: Comparator): (r: seq<Student>)
    requires HasClassLevel(user)
    ensures multiset(r) == multiset(ClassList(lists, ClassLevel(user).value))
    ensures ClassLevel(user).value !in lists ==> r == []
    ensures TotalPreorder(cmp) ==> SortedByName(cmp, r)
  {
    SortByName(cmp, ClassList(lists, ClassLevel(user).value))
  }

  /** After an add, the view shows everything it showed before plus the new record. */
  lemma {:induction false} ListAfterAdd(lists: ClassLists, user: User, studentName: string, now1: nat, now2: nat, cmp: Comparator)
    requires HasClassLevel(user) && !AllWhitespace(studentName)
    ensures var added := AddStudent(lists, user, studentName, now1, now2);
            multiset(ListStudents(added.classLists, user, cmp))
              == multiset(ListStudents(lists, user, cmp)) + multiset{added.status.student}
  {
  }

  /** After a confirmed remove, the view shows exactly the records it showed before
      whose id differs. */
  lemma {:induction false} ListAfterRemove(lists: ClassLists, user: User, id: string, cmp: Comparator)
    requires HasClassLevel(user)
    ensures var removed := RemoveStudent(lists, user, id, true);
            forall s :: multiset(ListStudents(removed.classLists, user, cmp))[s]
                        == if s.id == id then 0 else multiset(ListStudents(lists, user, cmp))[s]
  {
    var key := ClassLevel(user).value;
    if key !in lists {
      assert RemoveStudent(lists, user, id, true).classLists == lists;
    }
  }

}

=== FILE: roster.dfy ===
/**
 * The form master's class roster: the `classLists` object kept in browser storage,
 * mapping a class level to the students enrolled in it, with the add and remove
 * handlers of the dashboard as pure functions. Each handler returns the new
 * `classLists` and the log of its outward effects (the storage write and the call
 * that provisions exam-score slots), in the order the handler performs them.
 */
module Roster {
  import opened Wrappers
  import opened Text
  import opened Users
  import opened StudentIds

  /** One student record as stored: the record key, the trimmed name, the display id. */
  datatype Student = Student(id: string, fullName: string, studentId: string)

  /** The whole persisted object: class level to that class's students, in insertion order. */
  type ClassLists = map<string, seq<Student>>

  /** What a handler does beyond computing the new `classLists`. */
  datatype Effect =
    | WriteClassLists(classLists: ClassLists)
    | InitializeStudentScores(id: string, classLevel: string, fullName: string)

  /** `classLists[classLevel] || []`: a stored list, even an empty one, is truthy. */
  function ClassList(lists: ClassLists, classLevel: string): (r: seq<Student>)
    ensures classLevel in lists ==> r == lists[classLevel]
    ensures classLevel !in lists ==> r == []
  {
    if classLevel in lists then lists[classLevel] else []
  }

  ghost predicate UniqueIds(students: seq<Student>) {
    forall i, j :: 0 <= i < j < |students| ==> students[i].id != students[j].id
  }

  ghost predicate HasId(students: seq<Student>, id: string) {
    exists i :: 0 <= i < |students| && students[i].id == id
  }

  // ---------------------------------------------------------------- add

  datatype AddStatus = NameRequired | Added(student: Student)

  datatype AddResult = AddResult(status: AddStatus, classLists: ClassLists, log: seq<Effect>)

  /** Appends `s` to the list of `classLevel`, creating the list if it is missing
      (`if (!classLists[k]) classLists[k] = []; classLists[k].push(s)`). */
  function Enroll(lists: ClassLists, classLevel: string, s: Student): (r: ClassLists)
    ensures r.Keys == lists.Keys + {classLevel}
    ensures |r[classLevel]| == |ClassList(lists, classLevel)| + 1
    ensures r[classLevel][..|r[classLevel]| - 1] == ClassList(lists, classLevel)
    ensures r[classLevel][|r[classLevel]| - 1] == s
    ensures forall k :: k in lists && k != classLevel ==> r[k] == lists[k]
  {
    var before := ClassList(lists, classLevel);
    var after := before + [s];
    assert after[..|after| - 1] == before;
    lists[classLevel := after]
  }

  /** The add-student handler. `now1` and `now2` are the two `Date.now()` readings
      (record id, display id). A whitespace-only name is refused before anything else;
      otherwise the class level is resolved, the record is appended to its list
      (created if missing), the whole object is written back, and then exam-score
      slots are provisioned under the record id. */
  function AddStudent(lists: ClassLists, user: User, studentName: string, now1: nat, now2: nat): (r: AddResult)
    requires !AllWhitespace(studentName) ==> HasClassLevel(user)
    ensures r.status.NameRequired? <==> AllWhitespace(studentName)
    ensures r.status.NameRequired? ==> r.classLists == lists && r.log == []
    ensures r.status.Added? ==>
      var key := ClassLevel(user).value;
      var s := r.status.student;
      && s.id == MakeId(key, now1)
      && s.fullName == Trim(studentName) && s.fullName != []
      && s.studentId == DisplayId(now2)
      && r.classLists == Enroll(lists, key, s)
      && r.log == [WriteClassLists(r.classLists), InitializeStudentScores(s.id, key, s.fullName)]
  {
    TrimEmptyIffAllWhitespace(studentName);
    var name := Trim(studentName);
    if name == [] then
      AddResult(NameRequired, lists, [])
    else
      var key := ClassLevel(user).value;
      var student := Student(MakeId(key, now1), name, DisplayId(now2));
      var updated := Enroll(lists, key, student);
      AddResult(Added(student), updated,
                [WriteClassLists(updated), InitializeStudentScores(student.id, key, name)])
  }

  /** The stored name has no whitespace at either end, so trimming it again changes nothing. */
  lemma {:induction false} AddedNameIsTrimmed(lists: ClassLists, user: User, studentName: string, now1: nat, now2: nat)
    requires !AllWhitespace(studentName) ==> HasClassLevel(user)
    requires AddStudent(lists, user, studentName, now1, now2).status.Added?
    ensures var name := AddStudent(lists, user, studentName, now1, now2).status.student.fullName;
            && !IsWhitespace(name[0]) && !IsWhitespace(name[|name| - 1])
            && Trim(name) == name
  {
    TrimIdempotent(studentName);
  }

  /** Ids stay unique within the class when the clock reading is fresh: if every stored
      id of the class was made from that class and an earlier reading, the new one
      differs from all of them. The handler itself checks nothing. */
  lemma {:induction false} AddKeepsIdsUnique(lists: ClassLists, user: User, studentName: string, now1: nat, now2: nat,
                          stamps: seq<nat>)
    requires HasClassLevel(user) && !AllWhitespace(studentName)
    requires UniqueIds(ClassList(lists, ClassLevel(user).value))
    requires |stamps| == |ClassList(lists, ClassLevel(user).value)|
    requires forall i :: 0 <= i < |stamps| ==>
               ClassList(lists, ClassLevel(user).value)[i].id == MakeId(ClassLevel(user).value, stamps[i])
    requires forall i :: 0 <= i < |stamps| ==> stamps[i] < now1
    ensures UniqueIds(ClassList(AddStudent(lists, user, studentName, now1, now2).classLists,
                                ClassLevel(user).value))
  {
    var key := ClassLevel(user).value;
    var before := ClassList(lists, key);
    var r := AddStudent(lists, user, studentName, now1, now2);
    var xs := ClassList(r.classLists, key);
    assert xs[..|xs| - 1] == before;
    forall i, j | 0 <= i < j < |xs| ensures xs[i].id != xs[j].id {
      if j == |before| && xs[i].id == xs[j].id {
        assert xs[i] == before[i];
        MakeIdInjective(key, stamps[i], key, now1);
      }
      if j < |before| {
        assert xs[i] == before[i] && xs[j] == before[j];
      }
    }
  }

  // ---------------------------------------------------------------- remove

  /** `students.filter(s => s.id !== id)`. Keeps exactly the records with another id,
      each as often as before. */
  function WithoutId(students: seq<Student>, id: string): (r: seq<Student>)
    ensures forall s :: multiset(r)[s] == if s.id == id then 0 else multiset(students)[s]
  {
    if students == [] then []
    else
      var rest := WithoutId(students[1..], id);
      assert students == [students[0]] + students[1..];
      if students[0].id == id then rest else [students[0]] + rest
  }

  /** The records `filter` keeps stay in their original relative order. */
  lemma {:induction false} WithoutIdKeepsOrder(students: seq<Student>, id: string)
    ensures IsSubsequence(WithoutId(students, id), students)
    decreases |students|
  {
    if students != [] {
      WithoutIdKeepsOrder(students[1..], id);
      var rest := WithoutId(students[1..], id);
      if students[0].id == id {
        if rest != [] { assert rest[0] in multiset(rest); }
      } else {
        assert ([students[0]] + rest)[1..] == rest;
      }
    }
  }

  /** `sub` can be obtained from `full` by deleting entries (greedy matching). */
  ghost predicate IsSubsequence<T>(sub: seq<T>, full: seq<T>)
    decreases |full|
  {
    if sub == [] then true
    else if full == [] then false
    else if sub[0] == full[0] then IsSubsequence(sub[1..], full[1..])
    else IsSubsequence(sub, full[1..])
  }

  datatype RemoveResult = RemoveResult(classLists: ClassLists, log: seq<Effect>, shown: Option<seq<Student>>)

  /** The remove handler for the record `id`. `confirmed` is the answer to the
      confirmation dialog. Only when it is given and the class level has a stored list
      is the list filtered, the whole object written back, and the on-screen list
      replaced (`shown`); the exam-score slots are left as they are. */
  function RemoveStudent(lists: ClassLists, user: User, id: string, confirmed: bool): (r: RemoveResult)
    requires confirmed ==> HasClassLevel(user)
    ensures !confirmed || ClassLevel(user).value !in lists ==> r == RemoveResult(lists, [], None)
    ensures confirmed && ClassLevel(user).value in lists ==>
      var key := ClassLevel(user).value;
      && r.classLists.Keys == lists.Keys
      && (forall k :: k in lists && k != key ==> r.classLists[k] == lists[k])
      && (forall s :: multiset(r.classLists[key])[s] == if s.id == id then 0 else multiset(lists[key])[s])
      && (forall s :: s in r.classLists[key] <==> s in lists[key] && s.id != id)
      && IsSubsequence(r.classLists[key], lists[key])
      && r.log == [WriteClassLists(r.classLists)]
      && r.shown == Some(r.classLists[key])
  {
    if !confirmed then RemoveResult(lists, [], None)
    else
      var key := ClassLevel(user).value;
      if key in lists then
        var kept := WithoutId(lists[key], id);
        assert forall s :: s in kept <==> s in lists[key] && s.id != id by {
          forall s ensures s in kept <==> s in lists[key] && s.id != id {
            assert s in kept <==> multiset(kept)[s] > 0;
          }
        }
        WithoutIdKeepsOrder(lists[key], id);
        var updated := lists[key := kept];
        RemoveResult(updated, [WriteClassLists(updated)], Some(kept))
      else
        RemoveResult(lists, [], None)
  }

  /** Filtering by an id no record has keeps the list as it is. */
  lemma {:induction false} WithoutAbsentId(students: seq<Student>, id: string)
    requires !HasId(students, id)
    ensures WithoutId(students, id) == students
    decreases |students|
  {
    if students != [] {
      assert !HasId(students[1..], id) by {
        forall i | 0 <= i < |students| - 1 ensures students[1..][i].id != id {
          assert students[1..][i] == students[i + 1];
        }
      }
      WithoutAbsentId(students[1..], id);
      assert students == [students[0]] + students[1..];
    }
  }

  /** Filtering distributes over concatenation: relative order is what it was. */
  lemma {:induction false} WithoutIdAppend(a: seq<Student>, b: seq<Student>, id: string)
    ensures WithoutId(a + b, id) == WithoutId(a, id) + WithoutId(b, id)
    decreases |a|
  {
    if a != [] {
      var ab := a + b;
      assert ab[0] == a[0] && ab[1..] == a[1..] + b;
      WithoutIdAppend(a[1..], b, id);
    } else {
      assert a + b == b;
    }
  }

  /** After filtering, no record with that id is left. */
  lemma {:induction false} WithoutIdLeavesNone(students: seq<Student>, id: string)
    ensures !HasId(WithoutId(students, id), id)
  {
    var r := WithoutId(students, id);
    forall i | 0 <= i < |r| ensures r[i].id != id {
      assert r[i] in multiset(r);
    }
  }

  /** Removing an id that the class does not hold leaves the stored object unchanged
      (the handler still writes it back). */
  lemma {:induction false} RemoveAbsentIdKeepsLists(lists: ClassLists, user: User, id: string, confirmed: bool)
    requires confirmed ==> HasClassLevel(user)
    requires confirmed ==> !HasId(ClassList(lists, ClassLevel(user).value), id)
    ensures RemoveStudent(lists, user, id, confirmed).classLists == lists
  {
    if confirmed && ClassLevel(user).value in lists {
      var key := ClassLevel(user).value;
      WithoutAbsentId(lists[key], id);
      assert lists[key := lists[key]] == lists;
    }
  }

  /** Removing the same record twice is removing it once. */
  lemma {:induction false} RemoveTwiceIsRemoveOnce(lists: ClassLists, user: User, id: string)
    requires HasClassLevel(user)
    ensures var once := RemoveStudent(lists, user, id, true).classLists;
            RemoveStudent(once, user, id, true).classLists == once
  {
    var key := ClassLevel(user).value;
    if key in lists {
      WithoutIdLeavesNone(lists[key], id);
    }
    RemoveAbsentIdKeepsLists(RemoveStudent(lists, user, id, true).classLists, user, id, true);
  }

  /** Removing a freshly added record undoes the add in the stored object, except that
      a class list the add created stays behind, empty. The exam-score slots the add
      provisioned are not released. */
  lemma {:induction false} RemoveUndoesAdd(lists: ClassLists, user: User, studentName: string, now1: nat, now2: nat)
    requires HasClassLevel(user) && !AllWhitespace(studentName)
    requires !HasId(ClassList(lists, ClassLevel(user).value), MakeId(ClassLevel(user).value, now1))
    ensures var added := AddStudent(lists, user, studentName, now1, now2);
            var key := ClassLevel(user).value;
            var removed := RemoveStudent(added.classLists, user, added.status.student.id, true);
            && removed.classLists == lists[key := ClassList(lists, key)]
            && removed.log == [WriteClassLists(removed.classLists)]
  {
    var key := ClassLevel(user).value;
    var added := AddStudent(lists, user, studentName, now1, now2);
    var s := added.status.student;
    var before := ClassList(lists, key);
    assert added.classLists == lists[key := before + [s]];
    assert WithoutId(before + [s], s.id) == before by {
      UndoAppend(before, s);
    }
    RemoveConfirmed(added.classLists, user, s.id);
  }

  /** A confirmed remove from a stored list writes back that list filtered. */
  lemma {:induction false} RemoveConfirmed(lists: ClassLists, user: User, id: string)
    requires HasClassLevel(user) && ClassLevel(user).value in lists
    ensures var key := ClassLevel(user).value;
            var r := RemoveStudent(lists, user, id, true);
            && r.classLists == lists[key := WithoutId(lists[key], id)]
            && r.log == [WriteClassLists(r.classLists)]
  {
  }

  /** Filtering out the id of a record appended to a list that did not hold it gives
      the list back. */
  lemma {:induction false} UndoAppend(before: seq<Student>, s: Student)
    requires !HasId(before, s.id)
    ensures WithoutId(before + [s], s.id) == before
  {
    WithoutIdAppend(before, [s], s.id);
    WithoutAbsentId(before, s.id);
    assert WithoutId([s], s.id) == [];
  }
}

=== FILE: session.dfy ===
/**
 * A run of the dashboard: the user's add and remove actions applied one after the
 * other to the stored `classLists`, accumulating the effect log. Two facts hold of
 * every run: for every student on a roster a provisioning call was issued under its
 * record id, class and name; and the last object written to storage is the current one.
 */
module Session {
  import opened Wrappers
  import opened Users
  import opened Roster

  datatype Action =
    | Add(studentName: string, now1: nat, now2: nat)
    | Remove(id: string, confirmed: bool)

  datatype State = State(classLists: ClassLists, log: seq<Effect>)

  /** For every rostered student a provisioning call was issued (its outcome is not modelled). */
  ghost predicate Provisioned(st: State) {
    forall k, s :: k in st.classLists && s in st.classLists[k] ==>
      InitializeStudentScores(s.id, k, s.fullName) in st.log
  }

  /** The most recent object written to storage, if any was written. */
  function LastWrite(log: seq<Effect>): (r: Option<ClassLists>)
    ensures r.None? <==> forall i :: 0 <= i < |log| ==> !log[i].WriteClassLists?
    ensures r.Some? ==> exists i :: 0 <= i < |log| && log[i] == WriteClassLists(r.value)
                                    && forall j :: i < j < |log| ==> !log[j].WriteClassLists?
  {
    if log == [] then None
    else if log[|log| - 1].WriteClassLists? then Some(log[|log| - 1].classLists)
    else
      var r := LastWrite(log[..|log| - 1]);
      LastWriteOfLonger(log, r);
      r
  }

  /** The last write of a log that ends in a non-write is the last write of the log
      without its final entry. */
  lemma {:induction false} LastWriteOfLonger(log: seq<Effect>, r: Option<ClassLists>)
    requires log != [] && !log[|log| - 1].WriteClassLists?
    requires var earlier := log[..|log| - 1];
             && (r.None? <==> forall i :: 0 <= i < |earlier| ==> !earlier[i].WriteClassLists?)
             && (r.Some? ==> exists i :: 0 <= i < |earlier| && earlier[i] == WriteClassLists(r.value)
                                          && forall j :: i < j < |earlier| ==> !earlier[j].WriteClassLists?)
    ensures r.None? <==> forall i :: 0 <= i < |log| ==> !log[i].WriteClassLists?
    ensures r.Some? ==> exists i :: 0 <= i < |log| && log[i] == WriteClassLists(r.value)
                                    && forall j :: i < j < |log| ==> !log[j].WriteClassLists?
  {
    var earlier := log[..|log| - 1];
    if r.None? {
      forall i | 0 <= i < |log| ensures !log[i].WriteClassLists? {
        if i < |earlier| { assert earlier[i] == log[i]; }
      }
    } else {
      var i :| 0 <= i < |earlier| && earlier[i] == WriteClassLists(r.value)
               && forall j :: i < j < |earlier| ==> !earlier[j].WriteClassLists?;
      assert log[i] == earlier[i];
      forall j | i < j < |log| ensures !log[j].WriteClassLists? {
        if j < |earlier| { assert earlier[j] == log[j]; }
      }
    }
  }

  /** Storage holds what the model holds (or was never written in this run). */
  predicate Persisted(st: State) {
    LastWrite(st.log).Some? ==> LastWrite(st.log).value == st.classLists
  }

  function Apply(st: State, user: User, action: Action): (r: State)
    requires HasClassLevel(user)
    ensures st.log <= r.log
    ensures Provisioned(st) ==> Provisioned(r)
    ensures Persisted(st) ==> Persisted(r)
  {
    match action
    case Add(name, now1, now2) =>
      var res := AddStudent(st.classLists, user, name, now1, now2);
      AddKeepsInvariants(st, user, name, now1, now2);
      State(res.classLists, st.log + res.log)
    case Remove(id, confirmed) =>
      var res := RemoveStudent(st.classLists, user, id, confirmed);
      RemoveKeepsInvariants(st, user, id, confirmed);
      State(res.classLists, st.log + res.log)
  }

  lemma {:induction false} AddKeepsInvariants(st: State, user: User, name: string, now1: nat, now2: nat)
    requires HasClassLevel(user)
    ensures var res := AddStudent(st.classLists, user, name, now1, now2);
            var r := State(res.classLists, st.log + res.log);
            && (Provisioned(st) ==> Provisioned(r))
            && (Persisted(st) ==> Persisted(r))
  {
    var res := AddStudent(st.classLists, user, name, now1, now2);
    var r := State(res.classLists, st.log + res.log);
    if res.status.Added? {
      if Provisioned(st) {
        AddKeepsProvisioned(st, user, name, now1, now2);
      }
      assert r.log == st.log + [WriteClassLists(res.classLists), res.log[1]];
      WriteThenOther(st.log, res.classLists, res.log[1]);
    } else {
      assert r == st;
    }
  }

  /** A write followed by an entry that is not a write leaves that write the last one. */
  lemma {:induction false} WriteThenOther(log: seq<Effect>, lists: ClassLists, e: Effect)
    requires !e.WriteClassLists?
    ensures LastWrite(log + [WriteClassLists(lists), e]) == Some(lists)
  {
    var longer := log + [WriteClassLists(lists), e];
    assert longer[..|longer| - 1] == log + [WriteClassLists(lists)];
  }

  lemma {:induction false} RemoveKeepsInvariants(st: State, user: User, id: string, confirmed: bool)
    requires HasClassLevel(user)
    ensures var res := RemoveStudent(st.classLists, user, id, confirmed);
            var r := State(res.classLists, st.log + res.log);
            && (Provisioned(st) ==> Provisioned(r))
            && (Persisted(st) ==> Persisted(r))
  {
    var res := RemoveStudent(st.classLists, user, id, confirmed);
    var r := State(res.classLists, st.log + res.log);
    if res.log == [] {
      assert r == st;
    } else {
      if Provisioned(st) {
        forall k, s | k in r.classLists && s in r.classLists[k]
          ensures InitializeStudentScores(s.id, k, s.fullName) in r.log
        {
          assert s in st.classLists[k];
        }
      }
      assert r.log[|r.log| - 1] == WriteClassLists(res.classLists);
    }
  }

  lemma {:induction false} AddKeepsProvisioned(st: State, user: User, name: string, now1: nat, now2: nat)
    requires HasClassLevel(user) && Provisioned(st)
    requires AddStudent(st.classLists, user, name, now1, now2).status.Added?
    ensures var res := AddStudent(st.classLists, user, name, now1, now2);
            Provisioned(State(res.classLists, st.log + res.log))
  {
    var res := AddStudent(st.classLists, user, name, now1, now2);
    var key := ClassLevel(user).value;
    var r := State(res.classLists, st.log + res.log);
    var added := res.status.student;
    forall k, s | k in r.classLists && s in r.classLists[k]
      ensures InitializeStudentScores(s.id, k, s.fullName) in r.log
    {
      if k == key {
        var xs := r.classLists[k];
        assert xs == xs[..|xs| - 1] + [added];
        if s != added {
          assert s in ClassList(st.classLists, key);
        } else {
          assert r.log[|st.log| + 1] == InitializeStudentScores(s.id, k, s.fullName);
        }
      }
    }
  }

  /** The actions applied in order. */
  function Run(st: State, user: User, actions: seq<Action>): State
    requires HasClassLevel(user)
    decreases |actions|
  {
    if actions == [] then st else Run(Apply(st, user, actions[0]), user, actions[1..])
  }

  /** No action of a run undoes a provisioning: starting from a consistent state
      (an empty store, say), every student on every roster had a provisioning call
      issued, and storage holds the current object. Removals issue no call that would
      release the slots. */
  lemma {:induction false} RunKeepsInvariants(st: State, user: User, actions: seq<Action>)
    requires HasClassLevel(user) && Provisioned(st) && Persisted(st)
    ensures Provisioned(Run(st, user, actions)) && Persisted(Run(st, user, actions))
    ensures st.log <= Run(st, user, actions).log
    decreases |actions|
  {
    if actions != [] {
      var next := Apply(st, user, actions[0]);
      assert Run(st, user, actions) == Run(next, user, actions[1..]);
      RunKeepsInvariants(next, user, actions[1..]);
    }
  }
}

=== FILE: text.dfy ===
/**
 * The string primitives the roster screen relies on: `String.prototype.trim`,
 * the decimal rendering of a non-negative integer (`Number.prototype.toString`)
 * and `String.prototype.slice` with a possibly negative start.
 */
module Text {

  // ---------------------------------------------------------------- trim

  /** The characters `trim` removes: ECMAScript WhiteSpace (tab, vertical tab, form
      feed, space, no-break space, zero-width no-break space and the other space
      separators) and LineTerminator (line feed, carriage return, U+2028, U+2029). */
  predicate IsWhitespace(c: char) {
    || c == '\t' || c == '\n' || c == '\U{000B}' || c == '\U{000C}' || c == '\r'
    || c == ' ' || c == '\U{00A0}' || c == '\U{1680}'
    || ('\U{2000}' <= c <= '\U{200A}')
    || c == '\U{2028}' || c == '\U{2029}' || c == '\U{202F}' || c == '\U{205F}'
    || c == '\U{3000}' || c == '\U{FEFF}'
  }

  predicate AllWhitespace(s: string) {
    forall i :: 0 <= i < |s| ==> IsWhitespace(s[i])
  }

  /** `s[i..j]` is what is left of `s` once its whitespace ends are cut off. */
  ghost predicate IsTrimOf(s: string, i: int, j: int) {
    && 0 <= i <= j <= |s|
    && (forall k :: 0 <= k < i ==> IsWhitespace(s[k]))
    && (forall k :: j <= k < |s| ==> IsWhitespace(s[k]))
    && (i < j ==> !IsWhitespace(s[i]) && !IsWhitespace(s[j - 1]))
  }

  /** The first position at or after `i` that does not hold whitespace (`|s|` if none). */
  function SkipLeading(s: string, i: nat): (k: nat)
    requires i <= |s|
    ensures i <= k <= |s|
    ensures forall m :: i <= m < k ==> IsWhitespace(s[m])
    ensures k < |s| ==> !IsWhitespace(s[k])
    decreases |s| - i
  {
    if i < |s| && IsWhitespace(s[i]) then SkipLeading(s, i + 1) else i
  }

  /** The end of `s[lo..j]` once its trailing whitespace is cut off. */
  function SkipTrailing(s: string, lo: nat, j: nat): (k: nat)
    requires lo <= j <= |s|
    ensures lo <= k <= j
    ensures forall m :: k <= m < j ==> IsWhitespace(s[m])
    ensures lo < k ==> !IsWhitespace(s[k - 1])
    decreases j
  {
    if lo < j && IsWhitespace(s[j - 1]) then SkipTrailing(s, lo, j - 1) else j
  }

  /** `String.prototype.trim`: leading whitespace, then trailing whitespace, removed,
      the middle kept verbatim. */
  function Trim(s: string): (r: string)
    ensures exists i, j :: IsTrimOf(s, i, j) && r == s[i..j]
  {
    var i := SkipLeading(s, 0);
    var j := SkipTrailing(s, i, |s|);
    assert IsTrimOf(s, i, j);
    s[i..j]
  }

  /** The trim of a string is determined by its whitespace ends alone: any cut that
      removes only whitespace and leaves non-whitespace ends is the one `Trim` makes. */
  lemma {:induction false} TrimUnique(s: string, i: int, j: int)
    requires IsTrimOf(s, i, j)
    ensures Trim(s) == s[i..j]
  {
    var i', j' := TrimCut(s);
    CutsAgree(s, i, j, i', j');
  }

  /** The cut `Trim` makes. */
  lemma {:induction false} TrimCut(s: string) returns (i: int, j: int)
    ensures IsTrimOf(s, i, j) && Trim(s) == s[i..j]
  {
    i := SkipLeading(s, 0);
    j := SkipTrailing(s, i, |s|);
  }

  /** Two cuts that both remove exactly the whitespace ends coincide. */
  lemma {:induction false} CutsAgree(s: string, i: int, j: int, i': int, j': int)
    requires IsTrimOf(s, i, j) && IsTrimOf(s, i', j')
    ensures s[i..j] == s[i'..j']
  {
    if i < j && i' < j' {
      assert i == i';
      assert j == j';
    }
  }

  /** Trimming a trimmed string changes nothing. */
  lemma {:induction false} TrimIdempotent(s: string)
    ensures Trim(Trim(s)) == Trim(s)
  {
    var r := Trim(s);
    var i, j := TrimCut(s);
    if r != [] {
      assert r[0] == s[i] && r[|r| - 1] == s[j - 1];
    }
    assert IsTrimOf(r, 0, |r|);
    TrimUnique(r, 0, |r|);
    assert r[0..|r|] == r;
  }

  /** A name is rejected exactly when it consists of whitespace only. */
  lemma {:induction false} TrimEmptyIffAllWhitespace(s: string)
    ensures Trim(s) == [] <==> AllWhitespace(s)
  {
    var i, j := TrimCut(s);
    if AllWhitespace(s) {
      TrimUnique(s, |s|, |s|);
    }
  }

  // ---------------------------------------------------------------- decimal

  predicate IsDigit(c: char) {
    '0' <= c <= '9'
  }

  predicate AllDigits(s: string) {
    forall i :: 0 <= i < |s| ==> IsDigit(s[i])
  }

  function DigitChar(d: nat): (c: char)
    requires d < 10
    ensures IsDigit(c)
  {
    ('0' as int + d) as char
  }

  function DigitValue(c: char): (d: nat)
    requires IsDigit(c)
    ensures d < 10 && DigitChar(d) == c
  {
    c as int - '0' as int
  }

  function Pow10(k: nat): (p: nat)
    ensures p >= 1
  {
    if k == 0 then 1 else 10 * Pow10(k - 1)
  }

  /** `n.toString()` for a non-negative integer: its digits, without leading zeros. */
  function Decimal(n: nat): (r: string)
    ensures |r| > 0 && AllDigits(r)
    ensures |r| > 1 ==> r[0] != '0'
    decreases n
  {
    if n < 10 then [DigitChar(n)] else Decimal(n / 10) + [DigitChar(n % 10)]
  }

  /** The value of a string of decimal digits (leading zeros allowed). */
  function ParseDecimal(s: string): (n: nat)
    requires AllDigits(s)
    ensures n < Pow10(|s|)
  {
    if s == [] then 0 else 10 * ParseDecimal(s[..|s| - 1]) + DigitValue(s[|s| - 1])
  }

  /** Reading back the decimal rendering of `n` gives `n`. */
  lemma {:induction false} ParseDecimalOfDecimal(n: nat)
    ensures ParseDecimal(Decimal(n)) == n
    decreases n
  {
    var r := Decimal(n);
    if n >= 10 {
      ParseDecimalOfDecimal(n / 10);
      assert r[..|r| - 1] == Decimal(n / 10);
    }
  }

  /** Rendering the value of a canonical digit string (no leading zero) gives it back. */
  lemma {:induction false} DecimalOfParseDecimal(s: string)
    requires |s| > 0 && AllDigits(s)
    requires |s| > 1 ==> s[0] != '0'
    ensures Decimal(ParseDecimal(s)) == s
    decreases |s|
  {
    var init := s[..|s| - 1];
    if |s| > 1 {
      DecimalOfParseDecimal(init);
      if |init| == 1 { assert ParseDecimal(init) == DigitValue(s[0]); }
      assert ParseDecimal(init) >= 1;
      assert s == init + [s[|s| - 1]];
    }
  }

  /** Distinct numbers have distinct decimal renderings. */
  lemma {:induction false} DecimalInjective(m: nat, n: nat)
    requires Decimal(m) == Decimal(n)
    ensures m == n
  {
    ParseDecimalOfDecimal(m);
    ParseDecimalOfDecimal(n);
  }

  /** Two digit strings of the same length with the same value are the same string. */
  lemma {:induction false} ParseDecimalInjectiveAtLength(a: string, b: string)
    requires AllDigits(a) && AllDigits(b) && |a| == |b|
    requires ParseDecimal(a) == ParseDecimal(b)
    ensures a == b
    decreases |a|
  {
    if a != [] {
      var k := |a| - 1;
      assert ParseDecimal(a) % 10 == DigitValue(a[k]);
      assert ParseDecimal(b) % 10 == DigitValue(b[k]);
      ParseDecimalInjectiveAtLength(a[..k], b[..k]);
      assert a == a[..k] + [a[k]] && b == b[..k] + [b[k]];
    }
  }

  /** Splitting off the last decimal digit of `n` against a power of ten. */
  lemma {:induction false} ModPow10Step(n: nat, k: nat)
    ensures n % Pow10(k + 1) == 10 * ((n / 10) % Pow10(k)) + n % 10
  {
    var p := Pow10(k);
    var q, d := n / 10, n % 10;
    var a, b := q / p, q % p;
    assert n == 10 * q + d;
    assert q == p * a + b;
    assert n == (10 * p) * a + (10 * b + d);
    assert 0 <= 10 * b + d < 10 * p;
    DivModUnique(n, 10 * p, a, 10 * b + d);
  }

  lemma {:induction false} DivModUnique(n: int, m: int, a: int, c: int)
    requires m > 0 && 0 <= c < m && n == m * a + c
    ensures n % m == c
  {
    var a', c' := n / m, n % m;
    assert n == m * a' + c';
    var d := a - a';
    MulDistributes(m, a, a');
    assert m * d == c' - c;
    if d > 0 {
      MulAtLeast(m, d);
    } else if d < 0 {
      MulAtLeast(m, -d);
      MulNegate(m, d);
    }
  }

  lemma {:induction false} MulDistributes(m: int, a: int, b: int)
    ensures m * (a - b) == m * a - m * b
  {
  }

  lemma {:induction false} MulNegate(m: int, d: int)
    ensures m * -d == -(m * d)
  {
  }

  lemma {:induction false} MulAtLeast(m: int, d: int)
    requires m > 0 && d >= 1
    ensures m * d >= m
  {
    assert m * d == m * (d - 1) + m;
    assert m * (d - 1) >= 0;
  }

  lemma {:induction false} ParseDecimalSnoc(x: string, c: char)
    requires AllDigits(x) && IsDigit(c)
    ensures ParseDecimal(x + [c]) == 10 * ParseDecimal(x) + DigitValue(c)
  {
    assert (x + [c])[..|x|] == x;
  }

  /** The last `k` digits of `n`'s decimal rendering spell `n` modulo `10^k`. */
  lemma {:induction false} ParseDecimalOfSuffix(n: nat, k: nat)
    requires k <= |Decimal(n)|
    ensures ParseDecimal(Decimal(n)[|Decimal(n)| - k..]) == n % Pow10(k)
    decreases n
  {
    var r := Decimal(n);
    if k == 0 {
      assert r[|r| - k..] == [];
    } else if n < 10 {
      assert r[|r| - k..] == r == [DigitChar(n)];
      assert Pow10(k) == 10;
    } else {
      ParseDecimalOfSuffix(n / 10, k - 1);
      SuffixStep(n, k);
    }
  }

  /** One step of the induction above: the last `k` digits of `n` are the last `k - 1`
      digits of `n / 10` followed by the digit `n % 10`. */
  lemma {:induction false} SuffixStep(n: nat, k: nat)
    requires 10 <= n && 1 <= k <= |Decimal(n)|
    requires ParseDecimal(Decimal(n / 10)[|Decimal(n / 10)| - (k - 1)..]) == (n / 10) % Pow10(k - 1)
    ensures ParseDecimal(Decimal(n)[|Decimal(n)| - k..]) == n % Pow10(k)
  {
    var h := Decimal(n / 10);
    var x := h[|h| - (k - 1)..];
    var c := DigitChar(n % 10);
    SuffixSplit(n, k);
    ParseDecimalSnoc(x, c);
    ModPow10Step(n, k - 1);
  }

  /** The last `k` digits of `n` are the last `k - 1` digits of `n / 10`, then `n % 10`. */
  lemma {:induction false} SuffixSplit(n: nat, k: nat)
    requires 10 <= n && 1 <= k <= |Decimal(n)|
    ensures Decimal(n)[|Decimal(n)| - k..]
         == Decimal(n / 10)[|Decimal(n / 10)| - (k - 1)..] + [DigitChar(n % 10)]
    ensures DigitValue(DigitChar(n % 10)) == n % 10
  {
    var r := Decimal(n);
    var h := Decimal(n / 10);
    assert r == h + [DigitChar(n % 10)];
  }

  // ---------------------------------------------------------------- slice

  /** `s.slice(start)`: a negative start counts from the end; both clamp to the string. */
  function SliceFrom(s: string, start: int): (r: string)
    ensures start < 0 ==> |r| == if -start <= |s| then -start else |s|
    ensures 0 <= start ==> |r| == if start <= |s| then |s| - start else 0
    ensures r == s[|s| - |r|..]
  {
    var from := if start < 0 then (if |s| + start < 0 then 0 else |s| + start)
                else (if start < |s| then start else |s|);
    s[from..]
  }
}

=== FILE: users.dfy ===
/** The signed-in form master, as far as the roster screen reads it. */
module Users {
  import opened Wrappers

  /** `formClass` may be absent; a missing `classes` list reads like an empty one. */
  datatype User = User(formClass: Option<string>, classes: seq<string>)

  /** `user.formClass || user.classes?.[0]`: the class whose roster the screen manages.
      An empty `formClass` is falsy and falls through to the first listed class;
      `None` is the JavaScript `undefined` key, when neither source supplies one. */
  function ClassLevel(user: User): (r: Option<string>)
    ensures r.Some? <==> (user.formClass.Some? && user.formClass.value != "") || |user.classes| > 0
    ensures r.Some? && (user.formClass.None? || user.formClass.value == "") ==> r.value == user.classes[0]
    ensures user.formClass.Some? && user.formClass.value != "" ==> r == user.formClass
  {
    match user.formClass
    case Some(c) =>
      if c != "" then Some(c)
      else if |user.classes| > 0 then Some(user.classes[0]) else None
    case None =>
      if |user.classes| > 0 then Some(user.classes[0]) else None
  }

  /** A user for whom the fallback expression yields a key (not `undefined`). */
  predicate HasClassLevel(user: User) {
    ClassLevel(user).Some?
  }
}

=== FILE: walkthrough.dfy ===
/**
 * A worked session for class "JSS1": two adds, a listing, a remove, a second
 * listing and a remove of an id nobody has. The listing uses plain code-point
 * order in place of `localeCompare`.
 */
module Walkthrough {
  import opened Wrappers
  import opened Text
  import opened Users
  import opened StudentIds
  import opened Roster
  import opened Listing

  /** Lexicographic order of code points: negative, zero or positive. */
  function CodePointOrder(a: string, b: string): (c: int)
    ensures c == 0 <==> a == b
  {
    if a == [] && b == [] then 0
    else if a == [] then -1
    else if b == [] then 1
    else if a[0] != b[0] then a[0] as int - b[0] as int
    else
      assert a == [a[0]] + a[1..] && b == [b[0]] + b[1..];
      CodePointOrder(a[1..], b[1..])
  }

  lemma {:induction false} CodePointOrderAntisymmetric(a: string, b: string)
    ensures CodePointOrder(a, b) == -CodePointOrder(b, a)
    decreases |a|
  {
    if a != [] && b != [] && a[0] == b[0] {
      CodePointOrderAntisymmetric(a[1..], b[1..]);
    }
  }

  lemma {:induction false} CodePointOrderTransitive(a: string, b: string, c: string)
    requires CodePointOrder(a, b) <= 0 && CodePointOrder(b, c) <= 0
    ensures CodePointOrder(a, c) <= 0
    decreases |a|
  {
    if a != [] && b != [] && c != [] && a[0] == b[0] && b[0] == c[0] {
      CodePointOrderTransitive(a[1..], b[1..], c[1..]);
    }
  }

  /** Code-point order is a consistent comparison, so the listing lemmas apply to it. */
  lemma {:induction false} CodePointOrderIsTotalPreorder()
    ensures TotalPreorder(CodePointOrder)
  {
    forall a, b ensures CodePointOrder(a, b) <= 0 || CodePointOrder(b, a) <= 0 {
      CodePointOrderAntisymmetric(a, b);
    }
    forall a, b, c | CodePointOrder(a, b) <= 0 && CodePointOrder(b, c) <= 0
      ensures CodePointOrder(a, c) <= 0
    {
      CodePointOrderTransitive(a, b, c);
    }
  }

  function Names(students: seq<Student>): (names: seq<string>)
    ensures |names| == |students|
    ensures forall i :: 0 <= i < |students| ==> names[i] == students[i].fullName
  {
    if students == [] then [] else [students[0].fullName] + Names(students[1..])
  }

  const FormMaster: User := User(Some("JSS1"), [])

  function Record(name: string, now1: nat, now2: nat): Student {
    Student(MakeId("JSS1", now1), name, DisplayId(now2))
  }

  lemma {:induction false} TrimmedNames()
    ensures Trim("Bola Akin") == "Bola Akin" && !AllWhitespace("Bola Akin")
    ensures Trim("Ada Obi") == "Ada Obi" && !AllWhitespace("Ada Obi")
  {
    TrimUnique("Bola Akin", 0, 9);
    TrimUnique("Ada Obi", 0, 7);
    assert "Bola Akin"[0..9] == "Bola Akin" && "Ada Obi"[0..7] == "Ada Obi";
  }

  lemma {:induction false} AddToClass(lists: ClassLists, name: string, now1: nat, now2: nat)
    requires Trim(name) == name && !AllWhitespace(name)
    ensures var r := AddStudent(lists, FormMaster, name, now1, now2);
            && r.status == Added(Record(name, now1, now2))
            && r.log == [WriteClassLists(r.classLists), InitializeStudentScores(MakeId("JSS1", now1), "JSS1", name)]
            && r.classLists == lists["JSS1" := ClassList(lists, "JSS1") + [Record(name, now1, now2)]]
  {
  }

  lemma {:induction false} ListTwo(a: Student, b: Student)
    requires CodePointOrder(a.fullName, b.fullName) > 0
    ensures Names(ListStudents(map["JSS1" := [a, b]], FormMaster, CodePointOrder)) == [b.fullName, a.fullName]
  {
    assert [a, b][..1] == [a];
    assert SortByName(CodePointOrder, [a]) == [a];
    assert SortByName(CodePointOrder, [a, b]) == [b, a];
  }

  lemma {:induction false} RemoveFirst(bola: Student, ada: Student)
    requires bola.id != ada.id
    ensures RemoveStudent(map["JSS1" := [bola, ada]], FormMaster, bola.id, true).classLists
            == map["JSS1" := [ada]]
  {
    assert [bola, ada][1..] == [ada];
    assert [ada][1..] == [];
    assert WithoutId([bola, ada], bola.id) == [ada];
  }

  lemma {:induction false} TwoAdds(n1: string, n2: string, t1: nat, t2: nat, t3: nat, t4: nat)
    requires Trim(n1) == n1 && !AllWhitespace(n1) && Trim(n2) == n2 && !AllWhitespace(n2)
    ensures var first := AddStudent(map[], FormMaster, n1, t1, t2);
            var second := AddStudent(first.classLists, FormMaster, n2, t3, t4);
            && first.classLists == map["JSS1" := [Record(n1, t1, t2)]]
            && first.log == [WriteClassLists(first.classLists),
                             InitializeStudentScores(MakeId("JSS1", t1), "JSS1", n1)]
            && second.classLists == map["JSS1" := [Record(n1, t1, t2), Record(n2, t3, t4)]]
  {
    FirstAdd(n1, t1, t2);
    AddSecond(Record(n1, t1, t2), n2, t3, t4);
  }

  lemma {:induction false} FirstAdd(name: string, now1: nat, now2: nat)
    requires Trim(name) == name && !AllWhitespace(name)
    ensures var r := AddStudent(map[], FormMaster, name, now1, now2);
            && r.classLists == map["JSS1" := [Record(name, now1, now2)]]
            && r.log == [WriteClassLists(r.classLists), InitializeStudentScores(MakeId("JSS1", now1), "JSS1", name)]
  {
    AddToClass(map[], name, now1, now2);
    assert ClassList(map[], "JSS1") + [Record(name, now1, now2)] == [Record(name, now1, now2)];
  }

  lemma {:induction false} AddSecond(a: Student, name: string, now1: nat, now2: nat)
    requires Trim(name) == name && !AllWhitespace(name)
    ensures AddStudent(map["JSS1" := [a]], FormMaster, name, now1, now2).classLists
            == map["JSS1" := [a, Record(name, now1, now2)]]
  {
    var one: ClassLists := map["JSS1" := [a]];
    var rec := Record(name, now1, now2);
    AddToClass(one, name, now1, now2);
    assert ClassList(one, "JSS1") + [rec] == [a, rec];
    assert one["JSS1" := [a, rec]] == map["JSS1" := [a, rec]];
  }


  /** Start with no rosters; add `n1` at reading `t1` (display id from `t2`), then `n2`
      at `t3` (`t4`), where `n2` sorts first. The listing is `n2` then `n1`; removing
      the first record leaves the second alone; removing an id never issued (reading
      `t5`) then changes nothing. */
  lemma {:induction false} TwoStudentSession(n1: string, n2: string, t1: nat, t2: nat, t3: nat, t4: nat, t5: nat)
    requires Trim(n1) == n1 && !AllWhitespace(n1) && Trim(n2) == n2 && !AllWhitespace(n2)
    requires CodePointOrder(n1, n2) > 0
    requires t1 != t3 && t5 != t3
    ensures var first := AddStudent(map[], FormMaster, n1, t1, t2);
            var second := AddStudent(first.classLists, FormMaster, n2, t3, t4);
            var removed := RemoveStudent(second.classLists, FormMaster, MakeId("JSS1", t1), true);
            && Names(ListStudents(second.classLists, FormMaster, CodePointOrder)) == [n2, n1]
            && Names(ListStudents(removed.classLists, FormMaster, CodePointOrder)) == [n2]
            && RemoveStudent(removed.classLists, FormMaster, MakeId("JSS1", t5), true).classLists
               == removed.classLists
  {
    var a, b := Record(n1, t1, t2), Record(n2, t3, t4);
    var first := AddStudent(map[], FormMaster, n1, t1, t2);
    assert AddStudent(first.classLists, FormMaster, n2, t3, t4).classLists == map["JSS1" := [a, b]] by {
      TwoAdds(n1, n2, t1, t2, t3, t4);
    }
    var gone := MakeId("JSS1", t5);
    assert a.id != b.id by {
      if a.id == b.id { MakeIdInjective("JSS1", t1, "JSS1", t3); }
    }
    assert gone != b.id by {
      if b.id == gone { MakeIdInjective("JSS1", t3, "JSS1", t5); }
    }
    ListRemoveList(a, b, gone);
  }

  /** Listing, removing the first record and removing an unknown id, on a class of two. */
  lemma {:induction false} ListRemoveList(a: Student, b: Student, gone: string)
    requires CodePointOrder(a.fullName, b.fullName) > 0
    requires a.id != b.id && gone != b.id
    ensures var two := map["JSS1" := [a, b]];
            var removed := RemoveStudent(two, FormMaster, a.id, true);
            && Names(ListStudents(two, FormMaster, CodePointOrder)) == [b.fullName, a.fullName]
            && Names(ListStudents(removed.classLists, FormMaster, CodePointOrder)) == [b.fullName]
            && RemoveStudent(removed.classLists, FormMaster, gone, true).classLists == removed.classLists
  {
    ListTwo(a, b);
    RemoveFirst(a, b);
    assert SortByName(CodePointOrder, [b]) == [b];
    assert !HasId([b], gone);
    RemoveAbsentIdKeepsLists(map["JSS1" := [b]], FormMaster, gone, true);
  }

  /** The session for "Bola Akin" and "Ada Obi": Ada is listed first, removing Bola's
      record leaves Ada alone, and removing an id never issued changes nothing. The
      names are parameters pinned by the precondition because literal strings in the
      conclusion make the proof far costlier for the solver. */
  lemma {:induction false} JssOneSession(bola: string, ada: string, t1: nat, t2: nat, t3: nat, t4: nat, t5: nat)
    requires bola == "Bola Akin" && ada == "Ada Obi"
    requires t1 != t3 && t5 != t3
    ensures var first := AddStudent(map[], FormMaster, bola, t1, t2);
            var second := AddStudent(first.classLists, FormMaster, ada, t3, t4);
            var removed := RemoveStudent(second.classLists, FormMaster, MakeId("JSS1", t1), true);
            && Names(ListStudents(second.classLists, FormMaster, CodePointOrder)) == ["Ada Obi", "Bola Akin"]
            && Names(ListStudents(removed.classLists, FormMaster, CodePointOrder)) == ["Ada Obi"]
            && RemoveStudent(removed.classLists, FormMaster, MakeId("JSS1", t5), true).classLists
               == removed.classLists
  {
    TrimmedNames();
    assert CodePointOrder("Bola Akin", "Ada Obi") > 0;
    TwoStudentSession(bola, ada, t1, t2, t3, t4, t5);
  }

  /** Two adds in the same millisecond give both records the same id, since the code
      makes no duplicate check; removing the first then takes the second away too. */
  lemma {:induction false} SameMillisecond(n1: string, n2: string, t1: nat, t2: nat, t4: nat)
    requires Trim(n1) == n1 && !AllWhitespace(n1) && Trim(n2) == n2 && !AllWhitespace(n2)
    ensures var first := AddStudent(map[], FormMaster, n1, t1, t2);
            var second := AddStudent(first.classLists, FormMaster, n2, t1, t4);
            RemoveStudent(second.classLists, FormMaster, MakeId("JSS1", t1), true).classLists
            == map["JSS1" := []]
  {
    var a, b := Record(n1, t1, t2), Record(n2, t1, t4);
    var first := AddStudent(map[], FormMaster, n1, t1, t2);
    assert AddStudent(first.classLists, FormMaster, n2, t1, t4).classLists == map["JSS1" := [a, b]] by {
      TwoAdds(n1, n2, t1, t2, t1, t4);
    }
    RemoveBoth(a, b);
  }

  lemma {:induction false} RemoveBoth(a: Student, b: Student)
    requires a.id == b.id
    ensures RemoveStudent(map["JSS1" := [a, b]], FormMaster, a.id, true).classLists
            == map["JSS1" := []]
  {
    assert [a, b][1..] == [b];
    assert [b][1..] == [];
    assert WithoutId([a, b], a.id) == [];
  }
}

=== FILE: wrappers.dfy ===
/** A value that may be missing: JavaScript's `undefined` where the roster code tolerates it. */
module Wrappers {

  datatype Option<+T> = None | Some(value: T)
}
